=== FILE: README.md ===
# msgpack zone, modelled in Dafny

This project models `msgpack::zone`, the arena allocator of msgpack-c for C++11
(`include/msgpack/detail/cpp11_zone.hpp`). The model proves properties of it.
The zone has three parts, and each one is a Dafny module and file:

- `zone_math.dfy`, module `ZoneMath`: the zone's size arithmetic. It covers the
  alignment mask of `allocate_align`, `(size + A - 1) & ~(A - 1)`, modelled
  bit by bit (`ClearLowBits`). It covers the doubling search of
  `allocate_expand` (`GrowthExponent`, `GrowSize`) and the capacity choice of
  `push_expand` (`NextCapacity`).
- `chunk_list.dfy`, module `Chunks`: the chunk list. `class ChunkList` holds
  the fields of `chunk_list`:
  - `chain`: the capacity of each chunk, newest (head) first, as the `m_next`
    links order them;
  - `cursor`: `m_ptr`, as an offset into the head chunk;
  - `free`: `m_free`.

  An address is `At(age, offset)`, where the age of a chunk is the number of
  older chunks in the chain. The constructor's chunk has age 0, and ages do not
  change as chunks are added.

  The value `Chunks(chain, cursor, free)` and the functions `Bump`, `Grow`,
  `Allocated`, `Reserved`, `Undo` and `Reset` specify each state change. The
  ghost sequence `Handed` records the blocks handed out since the last clear.
- `finalizer_array.dfy`, module `Finalizers`: the finalizer ledger.
  `class FinalizerArray` keeps the entries in an `array` that growth replaces,
  as `realloc` does. `tail` is `m_tail - m_array` and `buf.Length` is
  `m_end - m_array`.
- `zone.dfy`, module `Zones`: `class Zone` composes the two parts. It models
  allocation, growth, undo, both `push_finalizer` overloads, the typed
  `allocate<T>`, `clear` and destruction.

Calls to finalizer functions, chunk releases and deletions by a `unique_ptr`
have effects outside the zone's counters. They are recorded in order in the
ghost `Zone.Log`.

Outcomes the zone does not control are boolean parameters:

- `mallocOk`: whether `malloc` succeeded when a chunk was added;
- `reallocOk`: whether `realloc` succeeded when the ledger grew;
- `ctorOk`: whether T's constructor returned normally.

A thrown `std::bad_alloc` or a rethrown constructor exception becomes a result
value (`ok == false`, `Outcome.BadAlloc`, `Outcome.ConstructorThrew`).

The model follows the code as written; in particular:

- `clear` keeps the LAST chunk of the chain. This is the oldest chunk, the one
  the constructor allocated.
- A failed `allocate<T>` restores the finalizer count exactly. It restores the
  chunk cursor only when sizeof(T) is a multiple of A, because the undo uses the
  unrounded size.
- An aligned allocation is guaranteed to return a multiple of A from an aligned
  cursor (`Chunks.AlignedAllocationStaysAligned`) or when a chunk is added
  (the block starts at offset 0). A bump from a misaligned cursor returns that
  cursor. `allocate_no_align` with sizes that are not multiples of A
  misaligns the cursor, and so does the rollback above.
- These are offsets from the first byte after a chunk's header. They are
  aligned addresses only when `sizeof(chunk)` and the alignment of `malloc`
  are multiples of A. That holds for the default A = `sizeof(int)`, but not,
  for instance, for a user-defined `MSGPACK_ZONE_ALIGN` of 16 with an 8-byte
  header.

## Model

| member | source | states |
|---|---|---|
| `ZoneMath.ClearLowBits` | include/msgpack/detail/cpp11_zone.hpp:224 | the mask `& ~(2^k - 1)` yields a multiple of 2^k that is at most its argument and less than 2^k below it |
| `ZoneMath.ClearLowBitsRoundsDown` | include/msgpack/detail/cpp11_zone.hpp:224 | the mask `& ~(2^k - 1)` subtracts the remainder modulo 2^k, i.e. rounds down to a multiple of 2^k |
| `ZoneMath.AlignUp` | include/msgpack/detail/cpp11_zone.hpp:221-225 | the size `allocate_align` passes on is a multiple of A, at least `size` and less than `size + A` |
| `ZoneMath.AlignUpIsLeast` | include/msgpack/detail/cpp11_zone.hpp:221-225 | every multiple of A that is at least `size` is at least the rounded size, so the rounding is the smallest one |
| `ZoneMath.AlignUpFixesMultiples` | include/msgpack/detail/cpp11_zone.hpp:221-225 | rounding leaves `size` unchanged if and only if `size` is a multiple of A |
| `ZoneMath.AlignUpSizeT` | include/msgpack/detail/cpp11_zone.hpp:223-224 | the source's rounding as evaluated in 64-bit `size_t`: the sum wraps before the mask, and the result is a multiple of A no larger than the wrapped sum |
| `ZoneMath.AlignUpSizeTAgrees` | include/msgpack/detail/cpp11_zone.hpp:223-224 | when `size + A - 1` does not overflow size_t, the source's expression equals `AlignUp` |
| `ZoneMath.AlignUpSizeTShortchanges` | include/msgpack/detail/cpp11_zone.hpp:223-224 | every size_t request within A - 1 of the top wraps and is rounded to fewer bytes than requested |
| `ZoneMath.AlignUpSizeTMaxIsZero` | include/msgpack/detail/cpp11_zone.hpp:223-224 | with A = 4, a request of SIZE_MAX bytes becomes a request of 0 bytes |
| `ZoneMath.GrowthExponent` | include/msgpack/detail/cpp11_zone.hpp:244-248 | the number k of doublings makes `chunk_size * 2^k` hold the request, and `chunk_size * 2^(k-1)` would not |
| `ZoneMath.GrowSize` | include/msgpack/detail/cpp11_zone.hpp:244-248 | a grown chunk is at least the request and at least the nominal chunk size |
| `ZoneMath.GrowthExponentUnique` | include/msgpack/detail/cpp11_zone.hpp:244-248 | these two properties determine the number of doublings |
| `ZoneMath.GrowSizeIsLeast` | include/msgpack/detail/cpp11_zone.hpp:244-248 | no smaller power-of-two multiple of the nominal chunk size holds the request |
| `ZoneMath.NextCapacity` | include/msgpack/detail/cpp11_zone.hpp:74-81 | growth always adds room; a non-empty ledger doubles; an empty one is seeded with as many entries as fit in 72 bytes, or 8 for entries of 36 bytes or more |
| `Chunks.BumpKeepsInvariants` | include/msgpack/detail/cpp11_zone.hpp:233-235 | a bump keeps `cursor + free == capacity(head)` and puts the new block after every block handed out before, inside the head |
| `Chunks.GrowKeepsInvariants` | include/msgpack/detail/cpp11_zone.hpp:250-258 | linking a grown chunk keeps the cursor invariant, keeps the older chunks with their ages and capacities, and puts the new block inside the new head |
| `Chunks.AllocationKeepsInvariants` | include/msgpack/detail/cpp11_zone.hpp:227-261 | every successful allocation hands out exactly the requested bytes inside the chain and keeps both invariants |
| `Chunks.PackedDisjoint` | include/msgpack/detail/cpp11_zone.hpp:227-261 | blocks handed out since the last clear are pairwise disjoint |
| `Chunks.AllocationIsFresh` | include/msgpack/detail/cpp11_zone.hpp:227-261 | a new block overlaps no block handed out before it |
| `Chunks.UndoKeepsInvariants` | include/msgpack/detail/cpp11_zone.hpp:292-296 | rewinding at most the last block, while it still ends at the cursor, keeps the cursor invariant for the remaining blocks |
| `Chunks.ResetKeepsInvariants` | include/msgpack/detail/cpp11_zone.hpp:127-143 | after a clear only the oldest chunk is left, with the cursor at its start and nothing handed out |
| `Chunks.ResetServesNominalRequest` | include/msgpack/detail/cpp11_zone.hpp:127-143 | after a clear, a request of at most the nominal size is served from the retained chunk at offset 0, with no new chunk |
| `Chunks.AlignedAllocationStaysAligned` | include/msgpack/detail/cpp11_zone.hpp:221-238 | from an aligned cursor, an aligned allocation returns a multiple of A and leaves the cursor aligned |
| `Chunks.RollbackRestoresIff` | include/msgpack/detail/cpp11_zone.hpp:299-316 | when the head chunk had room, undoing sizeof(T) after the aligned allocation restores the counters exactly if and only if sizeof(T) is a multiple of A |
| `Chunks.RollbackKeepsGrownChunk` | include/msgpack/detail/cpp11_zone.hpp:299-316 | a rollback after growth keeps the new chunk at the head, with the older chain behind it |
| `Chunks.RollbackAlignment` | include/msgpack/detail/cpp11_zone.hpp:299-316 | undoing sizeof(T) from an aligned cursor leaves it aligned if and only if sizeof(T) is a multiple of A |
| `Chunks.RollbackMisalignsExample` | include/msgpack/detail/cpp11_zone.hpp:299-316 | with A = 4, a failed 1-byte object on a fresh zone leaves the cursor at 3, and the next aligned allocation starts at offset 3 |
| `Chunks.RoundedRollbackRestores` | include/msgpack/detail/cpp11_zone.hpp:299-316 | undoing the rounded size restores the counters when the head had room, and keeps an aligned cursor aligned in every case |
| `Chunks.ChunkList.constructor` | include/msgpack/detail/cpp11_zone.hpp:102-113 | one chunk of `chunk_size` bytes, the cursor at its start, `m_free == chunk_size` |
| `Chunks.ChunkList.Clear` | include/msgpack/detail/cpp11_zone.hpp:127-143 | walks the chain from the head and releases every chunk except the last. The last chunk is reset to full capacity. The released chunks are reported newest first |
| `Chunks.ChunkList.Release` | include/msgpack/detail/cpp11_zone.hpp:114-126 | walks the chain from the head and releases every chunk, newest first |
| `Finalizers.ReversedPrepend` | include/msgpack/detail/cpp11_zone.hpp:47-50 | the entry first in push order runs last |
| `Finalizers.ReversedAt` | include/msgpack/detail/cpp11_zone.hpp:47-50 | the k-th finalizer run is the k-th entry from the tail |
| `Finalizers.ReversedMultiset` | include/msgpack/detail/cpp11_zone.hpp:47-50 | every entry runs exactly as often as it was pushed |
| `Finalizers.FinalizerArray.constructor` | include/msgpack/detail/cpp11_zone.hpp:46 | an empty ledger with no capacity |
| `Finalizers.FinalizerArray.Call` | include/msgpack/detail/cpp11_zone.hpp:47-50 | the countdown from the tail runs the recorded entries in reverse push order |
| `Finalizers.FinalizerArray.Clear` | include/msgpack/detail/cpp11_zone.hpp:55-58 | runs every entry in reverse order, then leaves the ledger empty with its buffer and capacity kept |
| `Finalizers.FinalizerArray.Push` | include/msgpack/detail/cpp11_zone.hpp:59-72 | appends exactly one entry and keeps the earlier ones. It fails only when the ledger is full and `realloc` fails, and then nothing changes. The capacity grows only when the ledger is full |
| `Finalizers.FinalizerArray.PushExpand` | include/msgpack/detail/cpp11_zone.hpp:73-93 | `realloc` to `NextCapacity` entries moves every entry, then the new one is stored. When `realloc` fails the ledger is unchanged |
| `Zones.ClearOrder` | include/msgpack/detail/cpp11_zone.hpp:275-279 | clear runs every finalizer once, last pushed first, before it releases any chunk. It then releases every chunk except the oldest |
| `Zones.DestroyOrder` | include/msgpack/detail/cpp11_zone.hpp:51-54 | destruction runs every finalizer once, in reverse order, before any chunk is released. It then releases every chunk |
| `Zones.Zone.constructor` | include/msgpack/detail/cpp11_zone.hpp:217-219 | one chunk of the nominal size and an empty ledger |
| `Zones.Zone.AllocateNoAlign` | include/msgpack/detail/cpp11_zone.hpp:227-238 | if the head has room, returns the old cursor and bumps the cursor and `m_free` by `size`, with the chain unchanged; otherwise it grows. A failed growth returns null with nothing changed |
| `Zones.Zone.AllocateExpand` | include/msgpack/detail/cpp11_zone.hpp:240-261 | the doubling loop finds `GrowSize`, and the new chunk becomes head in front of the old chain. It returns the new chunk's start with `m_free == sz - size`; when `malloc` fails it returns null with nothing changed |
| `Zones.Zone.AllocateAlign` | include/msgpack/detail/cpp11_zone.hpp:221-225 | allocates the size rounded up to a multiple of A |
| `Zones.Zone.UndoAllocate` | include/msgpack/detail/cpp11_zone.hpp:292-296 | moves the cursor back by `size` and adds `size` to `m_free`. The invariants hold for the blocks still handed out |
| `Zones.Zone.PushFinalizer` | include/msgpack/detail/cpp11_zone.hpp:263-266 | records exactly one entry, or on `bad_alloc` none. When the ledger had room the buffer is kept; a growth moves it to a new buffer of `NextCapacity` entries; a `bad_alloc` leaves the buffer and capacity as they were. |
| `Zones.Zone.PushFinalizerOwned` | include/msgpack/detail/cpp11_zone.hpp:268-273 | on success the zone takes over the object and nothing is deleted. On `bad_alloc` no entry is recorded, and the `unique_ptr` deletes the object. The buffer is kept, or replaced by one of `NextCapacity` entries, as for `PushFinalizer`. |
| `Zones.Zone.Allocate` | include/msgpack/detail/cpp11_zone.hpp:299-316 | success hands out the aligned block and records its finalizer. On either failure the finalizer count is restored, no finalizer runs, and the cursor is moved back by sizeof(T), not by the rounded size. On `BadAlloc` the ledger's buffer and capacity are kept; otherwise a push into a full ledger grows it to `NextCapacity` entries. |
| `Zones.Zone.AllocateRollbackRounded` | include/msgpack/detail/cpp11_zone.hpp:299-316 | the same protocol, undoing the rounded size: a failure with room in the head leaves the chunk counters exactly as they were. The ledger's buffer and capacity behave as for `Allocate`. |
| `Zones.Zone.Clear` | include/msgpack/detail/cpp11_zone.hpp:275-279 | runs the ledger, then releases every chunk but the constructor's. That chunk is reset to full capacity, and the ledger is left empty with its capacity kept |
| `Zones.Zone.Destroy` | include/msgpack/detail/cpp11_zone.hpp:114-126 | member destruction runs the ledger in reverse order, then releases every chunk. `~finalizer_array` (:51-54) runs before `~chunk_list` because members are destroyed in reverse declaration order (:149-150). |

## Findings

| source | as written | input that shows it | evidently intended | confidence | as-written member | corrected member |
|---|---|---|---|---|---|---|
| include/msgpack/detail/cpp11_zone.hpp:223-224 | `size + A - 1` is computed in `size_t` and wraps before the mask | `allocate_align(SIZE_MAX)` with A = 4 asks `allocate_no_align` for 0 bytes and succeeds | a request of at least `size` bytes (the least multiple of A not below `size`), which the zone cannot serve | not executed; the wrap follows from size_t arithmetic, that it is unintended is likely | `ZoneMath.AlignUpSizeT`, exhibited by `ZoneMath.AlignUpSizeTShortchanges` and `ZoneMath.AlignUpSizeTMaxIsZero` | `ZoneMath.AlignUp` (smallest multiple: `ZoneMath.AlignUpIsLeast`), used by `Zones.Zone.AllocateAlign` |
| include/msgpack/detail/cpp11_zone.hpp:306 | both rollbacks of `allocate<T>` call `undo_allocate(sizeof(T))` although `allocate_align` reserved the rounded size | A = 4, a fresh zone, a 1-byte T whose constructor throws: the cursor ends at offset 3, and the next `allocate_align(4)` returns offset 3 | undo the rounded size, so the counters are restored and the cursor stays aligned | not executed; the arithmetic is certain, that it is unintended is likely | `Zones.Zone.Allocate`, exhibited by `Chunks.RollbackAlignment` and `Chunks.RollbackMisalignsExample` | `Zones.Zone.AllocateRollbackRounded`, with `Chunks.RoundedRollbackRestores` |

## Left out

- Raw memory is not modelled: `malloc`, `realloc`, `free`, `reinterpret_cast`, placement `new` and byte contents. A chunk is a capacity and an address is a (chunk age, offset) pair. Offsets count from the first byte after the `chunk` header.
- The finalizer functions and `object_destructor<T>` are not modelled. Calling them is foreign code; the model records a `Finalized` event in `Zone.Log` instead.
- `zone::create`, `zone::destroy` and the class-level `operator new`/`operator delete` overloads are not modelled. They are heap plumbing around the constructor and destructor.
- `swap` is not modelled. It is `std::swap(*this, o)` over members that own raw pointers and have user-written destructors. Its effect rests on C++ implicit copy and move members and on the destruction of the temporary, not on allocator logic.
- Zones.Zone.constructor: a failing `malloc` in the `chunk_list` constructor is not modelled. It throws inside the `noexcept` zone constructor, which ends the program.
- Zones.Zone.constructor: requires a nonzero chunk size. With 0, the doubling loop of `allocate_expand` never ends for any nonzero request.
- Zones.Zone.Allocate: growth is taken to succeed. The source does not check the null that a failed `allocate_expand` returns, and constructs at that address.
- Zones.Zone.AllocateRollbackRounded: growth is taken to succeed, as for `Allocate`.
- Zones.Zone.AllocateAlign: rounds without `size_t` wrap-around, as `ZoneMath.AlignUp` does (see Findings).
- Zones.Zone.AllocateExpand: sizes are unbounded naturals, so `size_t` overflow is not modelled. In `size_t`, `sz *= 2` wraps for large requests. For a power-of-two chunk size such as the default 8192 it then reaches 0 and the loop never ends. For some other chunk sizes a wrapped value can reach the request first, and the loop ends with a size unrelated to `GrowSize`; `sizeof(chunk) + sz` can also wrap.
- Zones.Zone.Destroy: the zone is not used after destruction. Releasing the ledger's own buffer (`free(m_array)`) is not recorded.
- Zones.Zone.PushFinalizerOwned: the object's storage is not modelled. The entry `object_destructor<T>` only runs `~T()`, and after `release()` nothing frees the storage the `unique_ptr` owned; that leak is left to the caller and is not recorded in `Zone.Log`.
- Exceptions from T's constructor are reduced to the flag `ctorOk`. T's constructor is taken not to allocate from, or push finalizers onto, the same zone. If it did, the rollback's `--m_tail` and `undo_allocate(sizeof(T))` would remove the constructor's own entry and allocation instead of T's. The exact restoration in `Zones.Zone.Allocate` and the rollback lemmas rely on this. The finalizer entry's function for `allocate<T>` is an opaque identity `dtor`.
- Platform constants are parameters: `sizeof(finalizer)` is `entrySize` and A = `MSGPACK_ZONE_ALIGN` is 2^`alignLog`. The default chunk size 8192 is used only in the rollback example.

=== FILE: chunk_list.dfy ===
/** The chunk list of the msgpack zone: a newest-first chain of raw blocks with a
    bump cursor into the head block. A chunk is modelled by its capacity, an
    address by the pair (age of its chunk, byte offset), where the age of a chunk
    is the number of chunks of the chain that are older than it: the chunk the
    constructor allocates has age 0, and ages stay put while chunks are added. */
module Chunks {
  import opened ZoneMath

  /** A pointer: one the zone handed out, the null pointer `allocate_expand`
      returns when `malloc` fails, or one to storage from elsewhere, such as
      the data or object given to `push_finalizer`. */
  datatype Ptr =
    | Null
    | At(chunk: nat, offset: nat)   // a byte of the zone's chunk of that age
    | Foreign(id: nat)               // storage the zone did not hand out

  /** A byte range handed out by the zone. */
  datatype Block = Block(chunk: nat, offset: nat, size: nat)

  /** The counters of `chunk_list`: `chain` holds the capacity of every chunk,
      head (newest) first; `cursor` is `m_ptr` as an offset into the head chunk;
      `free` is `m_free`. */
  datatype Chunks = Chunks(chain: seq<nat>, cursor: nat, free: nat)

  /** `m_ptr + m_free` is the end of the head chunk. */
  predicate CursorInv(c: Chunks)
  {
    |c.chain| > 0 && c.cursor + c.free == c.chain[0]
  }

  /** The age of the head chunk. */
  function HeadAge(c: Chunks): nat
    requires |c.chain| > 0
  {
    |c.chain| - 1
  }

  /** Capacity of the chunk of the given age. */
  function Capacity(chain: seq<nat>, age: nat): nat
    requires age < |chain|
  {
    chain[|chain| - 1 - age]
  }

  /** A handed-out block lies inside its chunk and, when that chunk is the head,
      below the cursor. */
  predicate Within(b: Block, c: Chunks)
  {
    |c.chain| > 0 && b.chunk < |c.chain| &&
    b.offset + b.size <= Capacity(c.chain, b.chunk) &&
    (b.chunk == HeadAge(c) ==> b.offset + b.size <= c.cursor)
  }

  /** a was handed out before b: in another chunk, or ending where b may start. */
  predicate Precedes(a: Block, b: Block)
  {
    a.chunk != b.chunk || a.offset + a.size <= b.offset
  }

  predicate Disjoint(a: Block, b: Block)
  {
    a.chunk != b.chunk || a.offset + a.size <= b.offset || b.offset + b.size <= a.offset
  }

  /** The blocks handed out since the last clear, in the order they were handed
      out, all lie in the chain, and each lies before the ones handed out later. */
  ghost predicate Packed(handed: seq<Block>, c: Chunks)
  {
    (forall i :: 0 <= i < |handed| ==> Within(handed[i], c)) &&
    (forall i, j :: 0 <= i < j < |handed| ==> Precedes(handed[i], handed[j]))
  }

  // ---------------------------------------------------------------------------
  // The state transitions of the chunk list

  /** `allocate_no_align` when the head chunk has room: advance the cursor. */
  function Bump(c: Chunks, size: nat): Chunks
    requires size <= c.free
  {
    c.(cursor := c.cursor + size, free := c.free - size)
  }

  /** `allocate_expand` when `malloc` succeeds: link a chunk of GrowSize bytes
      as the new head and reserve `size` bytes at its start. */
  function Grow(c: Chunks, chunkSize: nat, size: nat): Chunks
    requires chunkSize > 0
  {
    var sz := GrowSize(chunkSize, size);
    Chunks([sz] + c.chain, size, sz - size)
  }

  /** The state after a successful `allocate_no_align(size)`. */
  function Allocated(c: Chunks, chunkSize: nat, size: nat): Chunks
    requires chunkSize > 0
  {
    if size <= c.free then Bump(c, size) else Grow(c, chunkSize, size)
  }

  /** The pointer to the first byte of a block. */
  function PtrTo(b: Block): Ptr
  {
    At(b.chunk, b.offset)
  }

  /** The block a successful `allocate_no_align(size)` hands out. */
  function Reserved(c: Chunks, size: nat): Block
    requires |c.chain| > 0
  {
    if size <= c.free then Block(HeadAge(c), c.cursor, size) else Block(|c.chain|, 0, size)
  }

  /** `undo_allocate(size)`: rewind the cursor. */
  function Undo(c: Chunks, size: nat): Chunks
    requires size <= c.cursor
  {
    c.(cursor := c.cursor - size, free := c.free + size)
  }

  /** `chunk_list::clear(chunk_size)`: keep only the last (oldest) chunk of the
      chain and put the cursor at its start. */
  function Reset(c: Chunks, chunkSize: nat): Chunks
    requires |c.chain| > 0
  {
    Chunks([c.chain[|c.chain| - 1]], 0, chunkSize)
  }

  /** Ages of the chunks `hi - 1` down to `lo`, the order in which walking the
      chain from the head visits them. */
  function AgesDown(hi: nat, lo: nat): (ages: seq<nat>)
    requires lo <= hi
  {
    seq(hi - lo, i requires 0 <= i < hi - lo => hi - 1 - i)
  }

  // ---------------------------------------------------------------------------
  // What the transitions keep

  /** A bump allocation keeps the cursor invariant and the handed-out blocks packed. */
  lemma BumpKeepsInvariants(handed: seq<Block>, c: Chunks, size: nat)
    requires CursorInv(c) && Packed(handed, c) && size <= c.free
    ensures CursorInv(Bump(c, size))
    ensures Packed(handed + [Block(HeadAge(c), c.cursor, size)], Bump(c, size))
  {
    var c', h' := Bump(c, size), handed + [Block(HeadAge(c), c.cursor, size)];
    forall i | 0 <= i < |h'| ensures Within(h'[i], c') {
      if i < |handed| { assert Within(handed[i], c); }
    }
    forall i, j | 0 <= i < j < |h'| ensures Precedes(h'[i], h'[j]) {
      if j < |handed| { assert Precedes(handed[i], handed[j]); }
      else { assert Within(handed[i], c); }
    }
  }

  /** Linking a grown chunk keeps the cursor invariant and the handed-out blocks
      packed: the older chunks keep their ages and capacities. */
  lemma GrowKeepsInvariants(handed: seq<Block>, c: Chunks, chunkSize: nat, size: nat)
    requires CursorInv(c) && Packed(handed, c) && chunkSize > 0
    ensures CursorInv(Grow(c, chunkSize, size))
    ensures Packed(handed + [Block(|c.chain|, 0, size)], Grow(c, chunkSize, size))
  {
    var c', h' := Grow(c, chunkSize, size), handed + [Block(|c.chain|, 0, size)];
    forall i | 0 <= i < |h'| ensures Within(h'[i], c') {
      if i < |handed| {
        var a := handed[i];
        assert Within(a, c);
        assert Capacity(c'.chain, a.chunk) == Capacity(c.chain, a.chunk);
      }
    }
    forall i, j | 0 <= i < j < |h'| ensures Precedes(h'[i], h'[j]) {
      if j < |handed| { assert Precedes(handed[i], handed[j]); }
      else { assert Within(handed[i], c); }
    }
  }

  /** Every successful allocation keeps the cursor invariant, hands out exactly
      `size` bytes inside the chain, and keeps the handed-out blocks packed. */
  lemma AllocationKeepsInvariants(handed: seq<Block>, c: Chunks, chunkSize: nat, size: nat)
    requires CursorInv(c) && Packed(handed, c) && chunkSize > 0
    ensures CursorInv(Allocated(c, chunkSize, size))
    ensures Reserved(c, size).size == size
    ensures Packed(handed + [Reserved(c, size)], Allocated(c, chunkSize, size))
  {
    if size <= c.free {
      BumpKeepsInvariants(handed, c, size);
    } else {
      GrowKeepsInvariants(handed, c, chunkSize, size);
    }
  }

  /** Packed blocks are pairwise disjoint. */
  lemma PackedDisjoint(handed: seq<Block>, c: Chunks, i: nat, j: nat)
    requires Packed(handed, c) && i < |handed| && j < |handed| && i != j
    ensures Disjoint(handed[i], handed[j])
  {
    if i < j {
      assert Precedes(handed[i], handed[j]);
    } else {
      assert Precedes(handed[j], handed[i]);
    }
  }

  /** The block an allocation hands out overlaps none of the blocks handed out
      before it. */
  lemma AllocationIsFresh(handed: seq<Block>, c: Chunks, chunkSize: nat, size: nat, i: nat)
    requires CursorInv(c) && Packed(handed, c) && chunkSize > 0 && i < |handed|
    ensures Disjoint(handed[i], Reserved(c, size))
  {
    AllocationKeepsInvariants(handed, c, chunkSize, size);
    PackedDisjoint(handed + [Reserved(c, size)], Allocated(c, chunkSize, size), i, |handed|);
  }

  /** Rewinding at most the last block handed out, while it still ends at the
      cursor of the head chunk, keeps the invariants for the remaining blocks. */
  lemma UndoKeepsInvariants(handed: seq<Block>, c: Chunks, size: nat)
    requires CursorInv(c) && Packed(handed, c) && |handed| > 0
    requires handed[|handed| - 1].chunk == HeadAge(c)
    requires handed[|handed| - 1].offset + handed[|handed| - 1].size == c.cursor
    requires size <= handed[|handed| - 1].size
    ensures CursorInv(Undo(c, size))
    ensures Packed(handed[..|handed| - 1], Undo(c, size))
  {
    var last, rest, c' := handed[|handed| - 1], handed[..|handed| - 1], Undo(c, size);
    forall i | 0 <= i < |rest| ensures Within(rest[i], c') {
      assert Within(rest[i], c);
      assert Precedes(rest[i], last);
    }
    forall i, j | 0 <= i < j < |rest| ensures Precedes(rest[i], rest[j]) {
      assert Precedes(handed[i], handed[j]);
    }
  }

  /** Clearing keeps the invariants when the oldest chunk has the nominal size. */
  lemma ResetKeepsInvariants(c: Chunks, chunkSize: nat)
    requires |c.chain| > 0 && c.chain[|c.chain| - 1] == chunkSize
    ensures CursorInv(Reset(c, chunkSize)) && Packed([], Reset(c, chunkSize))
    ensures Reset(c, chunkSize).chain == c.chain[|c.chain| - 1..]
  {
  }

  /** After a reset, a request of at most the nominal size is served from the
      retained chunk: no chunk is added. */
  lemma ResetServesNominalRequest(c: Chunks, chunkSize: nat, size: nat)
    requires |c.chain| > 0 && c.chain[|c.chain| - 1] == chunkSize && size <= chunkSize && chunkSize > 0
    ensures Allocated(Reset(c, chunkSize), chunkSize, size).chain == [chunkSize]
    ensures Reserved(Reset(c, chunkSize), size) == Block(0, 0, size)
  {
  }

  /** An aligned allocation from an aligned cursor starts at a multiple of A and
      leaves the cursor at a multiple of A. */
  lemma AlignedAllocationStaysAligned(c: Chunks, chunkSize: nat, size: nat, k: nat)
    requires CursorInv(c) && chunkSize > 0 && c.cursor % Pow2(k) == 0
    ensures Reserved(c, AlignUp(size, k)).offset % Pow2(k) == 0
    ensures Allocated(c, chunkSize, AlignUp(size, k)).cursor % Pow2(k) == 0
  {
    var r := AlignUp(size, k);
    if r <= c.free {
      MultiplesAdd(c.cursor, r, k);
    } else {
      assert 0 % Pow2(k) == 0;
    }
  }

  // ---------------------------------------------------------------------------
  // Rolling back an aligned allocation

  /** Undoing `n` bytes after an aligned allocation of `n` bytes restores the
      counters exactly if and only if `n` is a multiple of A (when the head chunk
      had room; after growth the new chunk stays in any case). */
  lemma RollbackRestoresIff(c: Chunks, chunkSize: nat, n: nat, k: nat)
    requires CursorInv(c) && chunkSize > 0 && AlignUp(n, k) <= c.free
    ensures Undo(Allocated(c, chunkSize, AlignUp(n, k)), n) == c <==> n % Pow2(k) == 0
  {
    AlignUpFixesMultiples(n, k);
  }

  /** A rollback after growth keeps the new chunk: the chain stays one longer. */
  lemma RollbackKeepsGrownChunk(c: Chunks, chunkSize: nat, n: nat, undo: nat, k: nat)
    requires CursorInv(c) && chunkSize > 0 && AlignUp(n, k) > c.free && undo <= AlignUp(n, k)
    ensures Undo(Allocated(c, chunkSize, AlignUp(n, k)), undo).chain[1..] == c.chain
    ensures Undo(Allocated(c, chunkSize, AlignUp(n, k)), undo).cursor == AlignUp(n, k) - undo
  {
  }

  /** Undoing the unrounded `n` from an aligned cursor leaves the cursor aligned
      if and only if `n` is a multiple of A. */
  lemma RollbackAlignment(c: Chunks, chunkSize: nat, n: nat, k: nat)
    requires CursorInv(c) && chunkSize > 0 && c.cursor % Pow2(k) == 0
    ensures Undo(Allocated(c, chunkSize, AlignUp(n, k)), n).cursor % Pow2(k) == 0 <==> n % Pow2(k) == 0
  {
    var r := AlignUp(n, k);
    var base := if r <= c.free then c.cursor else 0;
    assert Undo(Allocated(c, chunkSize, r), n).cursor == base + (r - n);
    AlignUpFixesMultiples(n, k);
    if r != n {
      OffsetBreaksMultiple(base, r - n, k);
    }
  }

  /** With A = 4 and a fresh 8192-byte chunk, undoing a 1-byte object leaves the
      cursor at offset 3, where the next aligned allocation then starts. */
  lemma RollbackMisalignsExample()
    ensures var c := Undo(Allocated(Chunks([8192], 0, 8192), 8192, AlignUp(1, 2)), 1);
            c.cursor == 3 && Reserved(c, AlignUp(4, 2)) == Block(0, 3, 4)
  {
    AlignUpFixesMultiples(4, 2);
    assert AlignUp(1, 2) == 4 by {
      AlignUpIsLeast(1, 2, 4);
    }
  }

  /** Undoing the ROUNDED size restores the counters exactly when the head chunk
      had room, and leaves an aligned cursor aligned in every case. */
  lemma RoundedRollbackRestores(c: Chunks, chunkSize: nat, n: nat, k: nat)
    requires CursorInv(c) && chunkSize > 0
    ensures var r := AlignUp(n, k); r <= c.free ==> Undo(Allocated(c, chunkSize, r), r) == c
    ensures c.cursor % Pow2(k) == 0 ==> Undo(Allocated(c, chunkSize, AlignUp(n, k)), AlignUp(n, k)).cursor % Pow2(k) == 0
  {
    assert 0 % Pow2(k) == 0;
  }

  // ---------------------------------------------------------------------------

  /** `chunk_list`: its three fields, plus the blocks handed out since the last
      clear as ghost state. */
  class ChunkList {
    var chain: seq<nat>
    var cursor: nat
    var free: nat
    ghost var Handed: seq<Block>

    function State(): Chunks
      reads this
    {
      Chunks(chain, cursor, free)
    }

    ghost predicate Valid()
      reads this
    {
      CursorInv(State()) && Packed(Handed, State())
    }

    /** `chunk_list(chunk_size)`: one chunk of `chunkSize` bytes, cursor at its start. */
    constructor (chunkSize: nat)
      ensures Valid()
      ensures State() == Chunks([chunkSize], 0, chunkSize) && Handed == []
    {
      chain := [chunkSize];
      free := chunkSize;
      cursor := 0;
      Handed := [];
    }

    /** `clear(chunk_size)`: walk the chain from the head, releasing every chunk
        that has a successor; the last one becomes the head, reset. */
    method Clear(chunkSize: nat) returns (ghost freed: seq<nat>)
      requires Valid() && chain[|chain| - 1] == chunkSize
      modifies this
      ensures Valid()
      ensures State() == Reset(old(State()), chunkSize) && Handed == []
      ensures freed == AgesDown(|old(chain)|, 1)
    {
      var c := 0;
      freed := [];
      while c + 1 < |chain|
        invariant 0 <= c < |chain|
        invariant freed == AgesDown(|chain|, |chain| - c)
      {
        freed := freed + [|chain| - 1 - c];
        c := c + 1;
      }
      ResetKeepsInvariants(State(), chunkSize);
      chain := chain[c..];
      free := chunkSize;
      cursor := 0;
      Handed := [];
    }

    /** `~chunk_list()`: walk the chain from the head, releasing every chunk. */
    method Release() returns (ghost freed: seq<nat>)
      requires Valid()
      modifies this
      ensures chain == [] && Handed == []
      ensures freed == AgesDown(|old(chain)|, 0)
    {
      var c := 0;
      freed := [];
      while true
        invariant 0 <= c < |chain|
        invariant freed == AgesDown(|chain|, |chain| - c)
        decreases |chain| - c
      {
        freed := freed + [|chain| - 1 - c];
        if c + 1 < |chain| {
          c := c + 1;
        } else {
          break;
        }
      }
      chain := [];
      Handed := [];
    }
  }
}

=== FILE: finalizer_array.dfy ===
/** The finalizer ledger of the msgpack zone (`finalizer_array`): a growable
    array of (function, data) pairs, run from the tail back to the start. */
module Finalizers {
  import opened ZoneMath
  import opened Chunks

  /** Identity of a cleanup function `void (*)(void*)`; what it does is not modelled. */
  type FuncId = nat

  /** One `finalizer`: the function and the pointer it is called with. */
  datatype Finalizer = Finalizer(func: FuncId, data: Ptr)

  /** The order in which `call` visits a ledger holding `s`: last pushed first. */
  function Reversed<T>(s: seq<T>): (r: seq<T>)
    ensures |r| == |s|
  {
    if s == [] then [] else [s[|s| - 1]] + Reversed(s[..|s| - 1])
  }

  /** Putting an element in front of a sequence puts it at the back of its reversal. */
  lemma {:induction false} ReversedPrepend<T>(x: T, s: seq<T>)
    ensures Reversed([x] + s) == Reversed(s) + [x]
    decreases |s|
  {
    if s != [] {
      var init := s[..|s| - 1];
      assert ([x] + s)[..|s|] == [x] + init;
      ReversedPrepend(x, init);
    }
  }

  /** The k-th finalizer run is the k-th from the tail. */
  lemma {:induction false} ReversedAt<T>(s: seq<T>, k: nat)
    requires k < |s|
    ensures Reversed(s)[k] == s[|s| - 1 - k]
    decreases |s|
  {
    if k > 0 {
      ReversedAt(s[..|s| - 1], k - 1);
    }
  }

  /** Every recorded finalizer runs exactly as many times as it was pushed. */
  lemma {:induction false} ReversedMultiset<T>(s: seq<T>)
    ensures multiset(Reversed(s)) == multiset(s)
    decreases |s|
  {
    if s != [] {
      var init := s[..|s| - 1];
      ReversedMultiset(init);
      assert s == init + [s[|s| - 1]];
    }
  }

  /** `finalizer_array`: `buf` is the block `m_array` points to, `buf.Length`
      is `m_end - m_array` and `tail` is `m_tail - m_array`, so that
      `m_array <= m_tail <= m_end` reads `0 <= tail <= buf.Length`.
      `entrySize` stands for sizeof(finalizer). */
  class FinalizerArray {
    var buf: array<Finalizer>
    var tail: nat
    const entrySize: nat

    ghost predicate Valid()
      reads this
    {
      tail <= buf.Length && entrySize > 0
    }

    /** The recorded finalizers, in push order. */
    ghost function Contents(): seq<Finalizer>
      reads this, buf
      requires Valid()
    {
      buf[..tail]
    }

    /** `finalizer_array()`: all three pointers null, no capacity. */
    constructor (entrySize: nat)
      requires entrySize > 0
      ensures Valid() && fresh(buf)
      ensures Contents() == [] && buf.Length == 0 && this.entrySize == entrySize
    {
      buf := new Finalizer[0];
      tail := 0;
      this.entrySize := entrySize;
    }

    /** `call()`: run the entries from `m_tail - 1` down to `m_array`. The run is
        returned as the sequence of finalizers invoked, in invocation order. */
    method Call() returns (ghost ran: seq<Finalizer>)
      requires Valid()
      ensures ran == Reversed(Contents())
    {
      var fin := tail;
      ran := [];
      while fin != 0
        invariant 0 <= fin <= tail
        invariant ran == Reversed(buf[fin..tail])
      {
        ReversedPrepend(buf[fin - 1], buf[fin..tail]);
        assert buf[fin - 1..tail] == [buf[fin - 1]] + buf[fin..tail];
        ran := ran + [buf[fin - 1]];
        fin := fin - 1;
      }
    }

    /** `clear()`: run every entry, then rewind the tail; the capacity stays. */
    method Clear() returns (ghost ran: seq<Finalizer>)
      requires Valid()
      modifies this
      ensures Valid() && buf == old(buf)
      ensures ran == Reversed(old(Contents())) && Contents() == []
    {
      ran := Call();
      tail := 0;
    }

    /** `push(func, data)`: store in place when there is room, otherwise grow.
        `reallocOk` is the outcome of the `realloc` that growth would call;
        `ok == false` stands for the `bad_alloc` thrown when it fails. */
    method Push(f: Finalizer, reallocOk: bool) returns (ok: bool)
      requires Valid()
      modifies this, buf
      ensures Valid()
      ensures ok == (old(tail) < old(buf.Length) || reallocOk)
      ensures ok ==> Contents() == old(Contents()) + [f]
      ensures !ok ==> buf == old(buf) && Contents() == old(Contents())
      ensures old(tail) < old(buf.Length) ==> buf == old(buf)
      ensures old(tail) == old(buf.Length) && ok ==>
                fresh(buf) && buf.Length == NextCapacity(old(buf.Length), entrySize)
    {
      if tail == buf.Length {
        ok := PushExpand(f, reallocOk);
        return;
      }
      buf[tail] := f;
      tail := tail + 1;
      ok := true;
    }

    /** `push_expand(func, data)`, called when the array is full: `realloc` to
        NextCapacity entries (the old entries move with it), then store `f`.
        When `realloc` fails nothing changes. */
    method PushExpand(f: Finalizer, reallocOk: bool) returns (ok: bool)
      requires Valid() && tail == buf.Length
      modifies this
      ensures Valid() && ok == reallocOk
      ensures ok ==> fresh(buf) && buf.Length == NextCapacity(old(buf.Length), entrySize)
      ensures ok ==> Contents() == old(Contents()) + [f]
      ensures !ok ==> buf == old(buf) && tail == old(tail)
    {
      var nused := buf.Length;
      var nnext := NextCapacity(nused, entrySize);
      if !reallocOk {
        return false;
      }
      var src, tmp := buf, new Finalizer[nnext];
      var i := 0;
      while i < nused
        invariant 0 <= i <= nused
        invariant tmp[..i] == src[..i]
      {
        tmp[i] := src[i];
        i := i + 1;
      }
      buf := tmp;
      tail := nused;
      buf[tail] := f;
      tail := tail + 1;
      ok := true;
    }
  }
}

=== FILE: zone.dfy ===
/** `msgpack::zone`: a chunk list and a finalizer ledger composed into one
    single-owner arena. Effects the zone has on the world outside its own
    counters (a finalizer running, a chunk handed back to `free`, an object
    deleted by its `unique_ptr`) are recorded, in order, in the ghost `Log`. */
module Zones {
  import opened ZoneMath
  import opened Chunks
  import opened Finalizers

  /** One externally visible effect of the zone. */
  datatype Event =
    | Finalized(fin: Finalizer)   // the finalizer's function was called on its data
    | ChunkFreed(chunk: nat)      // the chunk of this age was released
    | Deleted(obj: Ptr)           // a `unique_ptr` destroyed the object it still owned

  /** How `allocate<T>` ends: with the new object, or by rethrowing. */
  datatype Outcome =
    | Constructed(obj: Ptr)
    | BadAlloc            // the finalizer push threw std::bad_alloc
    | ConstructorThrew    // T's constructor threw

  function RunEvents(ran: seq<Finalizer>): seq<Event>
  {
    seq(|ran|, i requires 0 <= i < |ran| => Finalized(ran[i]))
  }

  function FreeEvents(ages: seq<nat>): seq<Event>
  {
    seq(|ages|, i requires 0 <= i < |ages| => ChunkFreed(ages[i]))
  }

  /** The effects of `zone::clear()` on a ledger holding `fins` and a chain of
      `n` chunks: the ledger is run, then the chain is walked from the head. */
  function ClearEvents(fins: seq<Finalizer>, n: nat): seq<Event>
    requires n >= 1
  {
    RunEvents(Reversed(fins)) + FreeEvents(AgesDown(n, 1))
  }

  /** The effects of destroying a zone: `~finalizer_array` runs the ledger, then
      `~chunk_list` releases the whole chain. */
  function DestroyEvents(fins: seq<Finalizer>, n: nat): seq<Event>
  {
    RunEvents(Reversed(fins)) + FreeEvents(AgesDown(n, 0))
  }

  /** Clearing runs every recorded finalizer once, last pushed first, before it
      releases any chunk, and it releases every chunk except the oldest. */
  lemma ClearOrder(fins: seq<Finalizer>, n: nat)
    requires n >= 1
    ensures var e := ClearEvents(fins, n);
      |e| == |fins| + n - 1 &&
      (forall k :: 0 <= k < |fins| ==> e[k] == Finalized(fins[|fins| - 1 - k])) &&
      (forall i, j :: 0 <= i < j < |e| && e[j].Finalized? ==> e[i].Finalized?) &&
      (forall age: nat :: ChunkFreed(age) in e <==> 1 <= age < n)
  {
    var e := ClearEvents(fins, n);
    forall k | 0 <= k < |fins| ensures e[k] == Finalized(fins[|fins| - 1 - k]) {
      ReversedAt(fins, k);
    }
    forall age: nat | 1 <= age < n ensures ChunkFreed(age) in e {
      assert e[|fins| + (n - 1 - age)] == ChunkFreed(age);
    }
  }

  /** Destroying runs every recorded finalizer once, last pushed first, before
      it releases any chunk, and then it releases every chunk. */
  lemma DestroyOrder(fins: seq<Finalizer>, n: nat)
    ensures var e := DestroyEvents(fins, n);
      |e| == |fins| + n &&
      (forall k :: 0 <= k < |fins| ==> e[k] == Finalized(fins[|fins| - 1 - k])) &&
      (forall i, j :: 0 <= i < j < |e| && e[j].Finalized? ==> e[i].Finalized?) &&
      (forall age: nat :: ChunkFreed(age) in e <==> age < n)
  {
    var e := DestroyEvents(fins, n);
    forall k | 0 <= k < |fins| ensures e[k] == Finalized(fins[|fins| - 1 - k]) {
      ReversedAt(fins, k);
    }
    forall age: nat | age < n ensures ChunkFreed(age) in e {
      assert e[|fins| + (n - 1 - age)] == ChunkFreed(age);
    }
  }

  class Zone {
    const chunkSize: nat                // m_chunk_size
    const alignLog: nat                 // MSGPACK_ZONE_ALIGN == Pow2(alignLog)
    const chunkList: ChunkList          // m_chunk_list
    const finalizers: FinalizerArray    // m_finalizer_array
    ghost var Log: seq<Event>

    /** Both parts are consistent, and the oldest chunk of the chain is the one
        of `chunkSize` bytes the constructor allocated. */
    ghost predicate Valid()
      reads this, chunkList, finalizers
    {
      chunkSize > 0 && chunkList.Valid() && finalizers.Valid() &&
      chunkList.chain[|chunkList.chain| - 1] == chunkSize
    }

    /** `zone(chunk_size)`: one chunk of `chunkSize` bytes and an empty ledger
        without capacity. `entrySize` stands for sizeof(finalizer). */
    constructor (chunkSize: nat, alignLog: nat, entrySize: nat)
      requires chunkSize > 0 && entrySize > 0
      ensures Valid() && fresh(chunkList) && fresh(finalizers) && fresh(finalizers.buf)
      ensures this.chunkSize == chunkSize && this.alignLog == alignLog
      ensures chunkList.State() == Chunks([chunkSize], 0, chunkSize) && chunkList.Handed == []
      ensures finalizers.Contents() == [] && finalizers.buf.Length == 0 && Log == []
    {
      this.chunkSize := chunkSize;
      this.alignLog := alignLog;
      chunkList := new ChunkList(chunkSize);
      finalizers := new FinalizerArray(entrySize);
      Log := [];
    }

    /** The chunk list after `allocate_no_align(size)` from the state `c0` with
        handed-out blocks `h0` returned `p`, `mallocOk` being the outcome of the
        `malloc` that growth would call. */
    ghost predicate AllocatedFrom(c0: Chunks, h0: seq<Block>, size: nat, mallocOk: bool, p: Ptr)
      requires |c0.chain| > 0 && chunkSize > 0
      reads this, chunkList
    {
      if size <= c0.free || mallocOk then
        p == PtrTo(Reserved(c0, size)) &&
        chunkList.State() == Allocated(c0, chunkSize, size) &&
        chunkList.Handed == h0 + [Reserved(c0, size)]
      else
        p == Null && chunkList.State() == c0 && chunkList.Handed == h0
    }

    /** `allocate_no_align(size)`: bump from the head chunk when it has room,
        otherwise grow. */
    method AllocateNoAlign(size: nat, mallocOk: bool) returns (p: Ptr)
      requires Valid()
      modifies chunkList
      ensures Valid()
      ensures AllocatedFrom(old(chunkList.State()), old(chunkList.Handed), size, mallocOk, p)
    {
      if chunkList.free < size {
        p := AllocateExpand(size, mallocOk);
        return;
      }
      var ptr := At(|chunkList.chain| - 1, chunkList.cursor);
      BumpKeepsInvariants(chunkList.Handed, chunkList.State(), size);
      chunkList.Handed := chunkList.Handed + [Block(ptr.chunk, ptr.offset, size)];
      chunkList.free := chunkList.free - size;
      chunkList.cursor := chunkList.cursor + size;
      p := ptr;
    }

    /** `allocate_expand(size)`: double the nominal chunk size until it holds
        `size` bytes, link a chunk of that size as the new head and hand out its
        first `size` bytes; when `malloc` fails, return null and change nothing. */
    method AllocateExpand(size: nat, mallocOk: bool) returns (p: Ptr)
      requires Valid()
      modifies chunkList
      ensures Valid()
      ensures mallocOk ==>
        p == At(|old(chunkList.chain)|, 0) &&
        chunkList.State() == Grow(old(chunkList.State()), chunkSize, size) &&
        chunkList.Handed == old(chunkList.Handed) + [Block(|old(chunkList.chain)|, 0, size)]
      ensures !mallocOk ==> p == Null && unchanged(chunkList)
    {
      var sz := chunkSize;
      ghost var k: nat := 0;
      while sz < size
        invariant sz > 0 && sz == chunkSize * Pow2(k)
        invariant k == 0 || chunkSize * Pow2(k - 1) < size
        decreases size - sz
      {
        assert chunkSize * Pow2(k + 1) == sz * 2;
        sz := sz * 2;
        k := k + 1;
      }
      GrowthExponentUnique(chunkSize, size, k);
      if !mallocOk {
        return Null;
      }
      var age := |chunkList.chain|;
      GrowKeepsInvariants(chunkList.Handed, chunkList.State(), chunkSize, size);
      chunkList.Handed := chunkList.Handed + [Block(age, 0, size)];
      chunkList.chain := [sz] + chunkList.chain;
      chunkList.free := sz - size;
      chunkList.cursor := size;
      p := At(age, 0);
    }

    /** `allocate_align(size)`: request the size rounded up to a multiple of A. */
    method AllocateAlign(size: nat, mallocOk: bool) returns (p: Ptr)
      requires Valid()
      modifies chunkList
      ensures Valid()
      ensures AllocatedFrom(old(chunkList.State()), old(chunkList.Handed), AlignUp(size, alignLog), mallocOk, p)
    {
      p := AllocateNoAlign(AlignUp(size, alignLog), mallocOk);
    }

    /** `undo_allocate(size)`: rewind the cursor by `size` bytes. Callers use it
        only right after the allocation it cancels, for at most the bytes that
        allocation handed out; that block is no longer handed out afterwards. */
    method UndoAllocate(size: nat)
      requires Valid() && |chunkList.Handed| > 0
      requires var last := chunkList.Handed[|chunkList.Handed| - 1];
        last.chunk == |chunkList.chain| - 1 && last.offset + last.size == chunkList.cursor &&
        size <= last.size
      modifies chunkList
      ensures Valid()
      ensures chunkList.State() == Undo(old(chunkList.State()), size)
      ensures chunkList.Handed == old(chunkList.Handed)[..|old(chunkList.Handed)| - 1]
    {
      UndoKeepsInvariants(chunkList.Handed, chunkList.State(), size);
      chunkList.cursor := chunkList.cursor - size;
      chunkList.free := chunkList.free + size;
      chunkList.Handed := chunkList.Handed[..|chunkList.Handed| - 1];
    }

    /** `push_finalizer(func, data)`: record a finalizer; `ok == false` stands
        for the `bad_alloc` a failed ledger growth throws. */
    method PushFinalizer(func: FuncId, data: Ptr, reallocOk: bool) returns (ok: bool)
      requires Valid()
      modifies finalizers, finalizers.buf
      ensures Valid()
      ensures ok == (old(finalizers.tail) < old(finalizers.buf.Length) || reallocOk)
      ensures finalizers.Contents() ==
        if ok then old(finalizers.Contents()) + [Finalizer(func, data)] else old(finalizers.Contents())
      ensures !ok || old(finalizers.tail) < old(finalizers.buf.Length) ==>
                finalizers.buf == old(finalizers.buf)
      ensures ok && old(finalizers.tail) == old(finalizers.buf.Length) ==>
                fresh(finalizers.buf) &&
                finalizers.buf.Length == NextCapacity(old(finalizers.buf.Length), finalizers.entrySize)
    {
      ok := finalizers.Push(Finalizer(func, data), reallocOk);
    }

    /** `push_finalizer(unique_ptr<T> obj)`: record `object_destructor<T>` for
        the object and take it over from the `unique_ptr`. When the push throws,
        the `unique_ptr` still owns the object and deletes it while unwinding. */
    method PushFinalizerOwned(dtor: FuncId, obj: Ptr, reallocOk: bool) returns (ok: bool)
      requires Valid()
      modifies this, finalizers, finalizers.buf
      ensures Valid()
      ensures ok == (old(finalizers.tail) < old(finalizers.buf.Length) || reallocOk)
      ensures ok ==> finalizers.Contents() == old(finalizers.Contents()) + [Finalizer(dtor, obj)] &&
                     Log == old(Log)
      ensures !ok ==> finalizers.Contents() == old(finalizers.Contents()) &&
                      Log == old(Log) + [Deleted(obj)]
      ensures !ok || old(finalizers.tail) < old(finalizers.buf.Length) ==>
                finalizers.buf == old(finalizers.buf)
      ensures ok && old(finalizers.tail) == old(finalizers.buf.Length) ==>
                fresh(finalizers.buf) &&
                finalizers.buf.Length == NextCapacity(old(finalizers.buf.Length), finalizers.entrySize)
    {
      ok := finalizers.Push(Finalizer(dtor, obj), reallocOk);
      if !ok {
        Log := Log + [Deleted(obj)];
      }
    }

    /** The state `allocate<T>` leaves, from the chunk state `c0`, handed-out
        blocks `h0` and ledger `f0` (`full` when the ledger had no free slot),
        when a failure rewinds `undo` bytes. */
    ghost predicate TypedAllocation(c0: Chunks, h0: seq<Block>, f0: seq<Finalizer>, full: bool,
                                    objSize: nat, undo: nat, dtor: FuncId,
                                    reallocOk: bool, ctorOk: bool, r: Outcome)
      requires |c0.chain| > 0 && chunkSize > 0 && finalizers.Valid()
      reads this, chunkList, finalizers, finalizers.buf
    {
      var n := AlignUp(objSize, alignLog);
      var b := Reserved(c0, n);
      var grown := Allocated(c0, chunkSize, n);
      r == (if full && !reallocOk then BadAlloc
            else if !ctorOk then ConstructorThrew
            else Constructed(PtrTo(b))) &&
      (r.Constructed? ==>
        chunkList.State() == grown && chunkList.Handed == h0 + [b] &&
        finalizers.Contents() == f0 + [Finalizer(dtor, PtrTo(b))]) &&
      (!r.Constructed? ==>
        undo <= grown.cursor && chunkList.State() == Undo(grown, undo) &&
        chunkList.Handed == h0 && finalizers.Contents() == f0)
    }

    /** `allocate<T>(args...)`: reserve aligned storage, record
        `object_destructor<T>` for it, then construct. A throwing push undoes the
        allocation; a throwing constructor drops the finalizer without running
        it and undoes the allocation. Both undo sizeof(T), `objSize`, not the
        rounded size that was allocated. Growth is taken to succeed. */
    method Allocate(objSize: nat, dtor: FuncId, reallocOk: bool, ctorOk: bool) returns (r: Outcome)
      requires Valid()
      modifies chunkList, finalizers, finalizers.buf
      ensures Valid() && Log == old(Log)
      ensures TypedAllocation(old(chunkList.State()), old(chunkList.Handed), old(finalizers.Contents()),
                              old(finalizers.tail) == old(finalizers.buf.Length),
                              objSize, objSize, dtor, reallocOk, ctorOk, r)
      ensures r.BadAlloc? || old(finalizers.tail) < old(finalizers.buf.Length) ==>
                finalizers.buf == old(finalizers.buf)
      ensures !r.BadAlloc? && old(finalizers.tail) == old(finalizers.buf.Length) ==>
                fresh(finalizers.buf) &&
                finalizers.buf.Length == NextCapacity(old(finalizers.buf.Length), finalizers.entrySize)
    {
      var x := AllocateAlign(objSize, true);
      var ok := finalizers.Push(Finalizer(dtor, x), reallocOk);
      if !ok {
        UndoAllocate(objSize);
        return BadAlloc;
      }
      if ctorOk {
        return Constructed(x);
      }
      finalizers.tail := finalizers.tail - 1;
      UndoAllocate(objSize);
      r := ConstructorThrew;
    }

    /** `allocate<T>` with both rollbacks undoing the rounded size that was
        allocated, so that a failed construction leaves the counters as they
        were when the head chunk had room. */
    method AllocateRollbackRounded(objSize: nat, dtor: FuncId, reallocOk: bool, ctorOk: bool)
      returns (r: Outcome)
      requires Valid()
      modifies chunkList, finalizers, finalizers.buf
      ensures Valid() && Log == old(Log)
      ensures TypedAllocation(old(chunkList.State()), old(chunkList.Handed), old(finalizers.Contents()),
                              old(finalizers.tail) == old(finalizers.buf.Length),
                              objSize, AlignUp(objSize, alignLog), dtor, reallocOk, ctorOk, r)
      ensures r.BadAlloc? || old(finalizers.tail) < old(finalizers.buf.Length) ==>
                finalizers.buf == old(finalizers.buf)
      ensures !r.BadAlloc? && old(finalizers.tail) == old(finalizers.buf.Length) ==>
                fresh(finalizers.buf) &&
                finalizers.buf.Length == NextCapacity(old(finalizers.buf.Length), finalizers.entrySize)
      ensures !r.Constructed? && AlignUp(objSize, alignLog) <= old(chunkList.free) ==>
                chunkList.State() == old(chunkList.State())
    {
      var n := AlignUp(objSize, alignLog);
      var x := AllocateAlign(objSize, true);
      var ok := finalizers.Push(Finalizer(dtor, x), reallocOk);
      if !ok {
        UndoAllocate(n);
        return BadAlloc;
      }
      if ctorOk {
        return Constructed(x);
      }
      finalizers.tail := finalizers.tail - 1;
      UndoAllocate(n);
      r := ConstructorThrew;
    }

    /** `zone::clear()`: run and empty the ledger, then reset the chunk list to
        its oldest chunk. */
    method Clear()
      requires Valid()
      modifies this, chunkList, finalizers
      ensures Valid()
      ensures Log == old(Log) + ClearEvents(old(finalizers.Contents()), |old(chunkList.chain)|)
      ensures finalizers.Contents() == [] && finalizers.buf == old(finalizers.buf)
      ensures chunkList.State() == Chunks([chunkSize], 0, chunkSize) && chunkList.Handed == []
    {
      ghost var ran := finalizers.Clear();
      ghost var freed := chunkList.Clear(chunkSize);
      Log := Log + RunEvents(ran) + FreeEvents(freed);
    }

    /** Destroying the zone: the members go in reverse order of declaration, so
        `~finalizer_array` runs the ledger before `~chunk_list` releases every
        chunk. The zone owns no chunk afterwards. */
    method Destroy()
      requires Valid()
      modifies this, chunkList
      ensures chunkList.chain == []
      ensures Log == old(Log) + DestroyEvents(old(finalizers.Contents()), |old(chunkList.chain)|)
    {
      ghost var ran := finalizers.Call();
      ghost var freed := chunkList.Release();
      Log := Log + RunEvents(ran) + FreeEvents(freed);
    }
  }
}

=== FILE: zone_math.dfy ===
/** Size arithmetic of the msgpack zone: the alignment mask of `allocate_align`,
    the doubling search of `allocate_expand` and the capacity choice of
    `finalizer_array::push_expand`. Sizes are unbounded naturals; the one place
    where the source's `size_t` wrap-around changes the answer is modelled
    separately (AlignUpSizeT). */
module ZoneMath {

  /** 2^k. The alignment A = MSGPACK_ZONE_ALIGN is taken as Pow2(alignLog). */
  function Pow2(k: nat): (p: nat)
    ensures p >= 1
  {
    if k == 0 then 1 else 2 * Pow2(k - 1)
  }

  /** The number one past the largest `size_t` on a 64-bit target. */
  const SizeTModulus: nat := 0x1_0000_0000_0000_0000

  // ---------------------------------------------------------------------------
  // Division facts used below (the divisor is symbolic, so Z3 needs them spelt out)

  lemma MulAtLeast(d: int, t: int)
    requires d > 0
    ensures t >= 1 ==> d * t >= d
    ensures t <= -1 ==> d * t <= -d
  {
  }

  lemma MulMonotone(c: nat, x: nat, y: nat)
    requires x <= y
    ensures c * x <= c * y
  {
  }

  lemma DivModUnique(a: int, d: int, q: int, r: int)
    requires d > 0 && 0 <= r < d && a == d * q + r
    ensures a / d == q && a % d == r
  {
    var t := q - a / d;
    assert d * t == a % d - r;
    MulAtLeast(d, t);
  }

  lemma MultipleMod(d: int, q: int)
    requires d > 0
    ensures (d * q) % d == 0
  {
    DivModUnique(d * q, d, q, 0);
  }

  // ---------------------------------------------------------------------------
  // The mask `x & ~(2^k - 1)`

  /** `x & ~(2^k - 1)` on a natural: clears the k low-order bits, one bit at a time. */
  function ClearLowBits(x: nat, k: nat): (r: nat)
    ensures r % Pow2(k) == 0
    ensures r <= x < r + Pow2(k)
  {
    if k == 0 then x
    else
      var h := ClearLowBits(x / 2, k - 1);
      var p := Pow2(k - 1);
      assert h == p * (h / p);
      assert 2 * h == (2 * p) * (h / p);
      MultipleMod(2 * p, h / p);
      2 * h
  }

  /** Clearing the k low bits subtracts the remainder modulo 2^k: the mask
      rounds down to a multiple of 2^k. */
  lemma {:induction false} ClearLowBitsRoundsDown(x: nat, k: nat)
    ensures ClearLowBits(x, k) == x - x % Pow2(k)
  {
    var r, p := ClearLowBits(x, k), Pow2(k);
    assert r == p * (r / p);
    DivModUnique(x, p, r / p, x - r);
  }

  /** The request `allocate_align` passes on, `(size + A - 1) & ~(A - 1)` with
      A = 2^k, computed without wrap-around: the smallest multiple of A that is
      at least `size`. */
  function AlignUp(size: nat, k: nat): (r: nat)
    ensures r % Pow2(k) == 0
    ensures size <= r < size + Pow2(k)
  {
    ClearLowBits(size + Pow2(k) - 1, k)
  }

  /** No multiple of 2^k lies in [size, AlignUp(size, k)): the rounding is the least one. */
  lemma AlignUpIsLeast(size: nat, k: nat, m: nat)
    requires m % Pow2(k) == 0 && size <= m
    ensures AlignUp(size, k) <= m
  {
    var r := AlignUp(size, k);
    if m < r {
      MultiplesApart(m, r, Pow2(k));
    }
  }

  /** Two distinct multiples of d are at least d apart. */
  lemma MultiplesApart(m: nat, r: nat, d: nat)
    requires d > 0 && m % d == 0 && r % d == 0 && m < r
    ensures m + d <= r
  {
    var qr, qm := r / d, m / d;
    assert r == d * qr && m == d * qm;
    assert r - m == d * (qr - qm);
    MulAtLeast(d, qr - qm);
  }

  /** A size that is already a multiple of 2^k is passed on unchanged, and only such a size is. */
  lemma AlignUpFixesMultiples(size: nat, k: nat)
    ensures AlignUp(size, k) == size <==> size % Pow2(k) == 0
  {
    if size % Pow2(k) == 0 {
      AlignUpIsLeast(size, k, size);
    }
  }

  /** Adding two multiples of 2^k gives a multiple of 2^k. */
  lemma MultiplesAdd(a: nat, b: nat, k: nat)
    requires a % Pow2(k) == 0 && b % Pow2(k) == 0
    ensures (a + b) % Pow2(k) == 0
  {
    var p := Pow2(k);
    assert a == p * (a / p) && b == p * (b / p);
    assert a + b == p * (a / p + b / p);
    MultipleMod(p, a / p + b / p);
  }

  /** A multiple of 2^k plus a positive amount below 2^k is not a multiple of 2^k. */
  lemma OffsetBreaksMultiple(a: nat, d: nat, k: nat)
    requires a % Pow2(k) == 0 && 0 < d < Pow2(k)
    ensures (a + d) % Pow2(k) == d
  {
    var p := Pow2(k);
    assert a == p * (a / p);
    DivModUnique(a + d, p, a / p, d);
  }

  // ---------------------------------------------------------------------------
  // The mask as the source computes it, in size_t

  /** `(size + A - 1) & ~(A - 1)` as evaluated in 64-bit `size_t`: the sum wraps
      around before the mask is applied. */
  function AlignUpSizeT(size: nat, k: nat): (r: nat)
    ensures r % Pow2(k) == 0 && r < SizeTModulus
    ensures r <= (size + Pow2(k) - 1) % SizeTModulus
  {
    ClearLowBits((size + Pow2(k) - 1) % SizeTModulus, k)
  }

  /** Below the wrap-around point the size_t computation is the rounding AlignUp. */
  lemma AlignUpSizeTAgrees(size: nat, k: nat)
    requires size + Pow2(k) - 1 < SizeTModulus
    ensures AlignUpSizeT(size, k) == AlignUp(size, k)
  {
    SizeTResidue(size + Pow2(k) - 1);
  }

  /** A value below the modulus is its own residue. */
  lemma SizeTResidue(x: nat)
    requires x < SizeTModulus
    ensures x % SizeTModulus == x
  {
    DivModUnique(x, SizeTModulus, 0, x);
  }

  /** Every size_t request within A - 1 of the top wraps and is rounded to a
      value SMALLER than the request: the caller is handed fewer bytes than it
      asked for. */
  lemma AlignUpSizeTShortchanges(size: nat, k: nat)
    requires size < SizeTModulus && Pow2(k) <= SizeTModulus
    requires size + Pow2(k) - 1 >= SizeTModulus
    ensures AlignUpSizeT(size, k) < size
  {
    var x := size + Pow2(k) - 1;
    DivModUnique(x, SizeTModulus, 1, x - SizeTModulus);
  }

  /** The largest size_t request with A = 4 becomes a request for 0 bytes. */
  lemma AlignUpSizeTMaxIsZero()
    ensures AlignUpSizeT(SizeTModulus - 1, 2) == 0
  {
    assert (SizeTModulus - 1 + Pow2(2) - 1) % SizeTModulus == 2;
    assert ClearLowBits(0, 0) == 0;
    assert ClearLowBits(1, 1) == 0;
  }

  // ---------------------------------------------------------------------------
  // Chunk growth: `sz = m_chunk_size; while (sz < size) sz *= 2;`

  /** The number of doublings `allocate_expand` applies to the nominal chunk
      size c before it holds `size` bytes: c * 2^k is at least `size`, and one
      doubling fewer would not have been. */
  function GrowthExponent(c: nat, size: nat): (k: nat)
    requires c > 0
    ensures size <= c * Pow2(k)
    ensures k == 0 || c * Pow2(k - 1) < size
    decreases size - c
  {
    if size <= c then 0
    else
      var j := GrowthExponent(2 * c, size);
      DoublingShifts(c, j + 1);
      if j > 0 then DoublingShifts(c, j); j + 1 else j + 1
  }

  /** Doubling the base takes one doubling off the exponent. */
  lemma DoublingShifts(c: nat, j: nat)
    requires j > 0
    ensures c * Pow2(j) == (2 * c) * Pow2(j - 1)
  {
    var p := Pow2(j - 1);
    assert Pow2(j) == 2 * p;
    assert c * (2 * p) == (2 * c) * p;
  }

  /** Capacity of the chunk `allocate_expand` links for a `size`-byte request. */
  function GrowSize(c: nat, size: nat): (sz: nat)
    requires c > 0
    ensures size <= sz && c <= sz
  {
    c * Pow2(GrowthExponent(c, size))
  }

  /** The exponent is determined by its two properties: any j such that c * 2^j
      holds `size` while c * 2^(j-1) does not is GrowthExponent(c, size). */
  lemma {:induction false} GrowthExponentUnique(c: nat, size: nat, j: nat)
    requires c > 0
    requires size <= c * Pow2(j)
    requires j == 0 || c * Pow2(j - 1) < size
    ensures j == GrowthExponent(c, size)
    decreases j
  {
    if size > c {
      DoublingShifts(c, j);
      if j > 1 {
        DoublingShifts(c, j - 1);
      }
      GrowthExponentUnique(2 * c, size, j - 1);
    }
  }

  /** The grown chunk is the smallest power-of-two multiple of c that holds `size`. */
  lemma GrowSizeIsLeast(c: nat, size: nat, j: nat)
    requires c > 0 && size <= c * Pow2(j)
    ensures GrowSize(c, size) <= c * Pow2(j)
  {
    var k := GrowthExponent(c, size);
    if k > j {
      Pow2Monotone(j, k - 1);
      MulMonotone(c, Pow2(j), Pow2(k - 1));
    } else {
      Pow2Monotone(k, j);
      MulMonotone(c, Pow2(k), Pow2(j));
    }
  }

  lemma {:induction false} Pow2Monotone(i: nat, j: nat)
    requires i <= j
    ensures Pow2(i) <= Pow2(j)
    decreases j
  {
    if i < j {
      Pow2Monotone(i, j - 1);
    }
  }

  // ---------------------------------------------------------------------------
  // Finalizer ledger growth

  /** Capacity `push_expand` asks `realloc` for when the ledger of capacity
      `nused` is full; `entrySize` is sizeof(finalizer). An empty ledger is
      seeded with as many entries as fit in 72 bytes (8 when an entry is 36
      bytes or more); after that the capacity doubles. */
  function NextCapacity(nused: nat, entrySize: nat): (nnext: nat)
    requires entrySize > 0
    ensures nnext > nused
    ensures nused > 0 ==> nnext == 2 * nused
    ensures nused == 0 && entrySize < 36 ==> nnext * entrySize <= 72 < (nnext + 1) * entrySize
    ensures nused == 0 && entrySize >= 36 ==> nnext == 8
  {
    if nused == 0 then
      if entrySize < 72 / 2 then
        var q := 72 / entrySize;
        assert 72 == entrySize * q + 72 % entrySize;
        q
      else 8
    else nused * 2
  }
}
